=== FILE: README.md ===
# Book dashboard: state and derived view

A Dafny model of the logic inside the `App` component of a small React book-management dashboard. The component
keeps a list of books in sync with a REST record store (`GET`, `POST`, `PUT`, `DELETE` on `/books`). It shows the list
filtered by a search text, a genre and a status, ten books per page. It also runs the add/edit form, a
confirm-before-delete dialog and a single toast notification.

The model is functional. `AppState` holds the component's state hooks and the values held by the form. Each event handler is a function from a
state to a `Step`, which records three things: the state afterwards, the calls made to the record store, and the
toasts shown, each in order. The network is not modelled. Whether a call succeeded, and which books a list call
returned, is passed in as a parameter (`WriteOutcome`, `FetchOutcome`). The same holds for the random identifier
given to a new book.

Modules:

- `Basics`: `Option` and integer `Min`/`Max`.
- `Text`: ASCII lower-casing, `includes` and the `^\d{4}$` year pattern.
- `Catalog`: `Book`, the form's `Draft`, the validation rules and the identifier of a submitted book.
- `View`: filtering, the page count, JavaScript `slice` and the page shown.
- `Navigation`: the Previous and Next clamps.
- `Sync`: record-store calls and their outcomes.
- `Notifications`: the toast slot and its messages.
- `Dashboard`: the state, the handlers, event sequences and their invariants.
- `Scenarios`: worked examples.

Behaviours of the code that the model keeps:

- A successful delete shows an `info` toast, not a `success` one.
- The form checks the genre only for being non-empty. The drop-down is what limits the choice to the fixed list of
  genres.
- The submitted id is `book?.id || generateRandomId()`. An edited book whose id is the empty string therefore gets a
  fresh id, and the update goes to that fresh id (`Catalog.SubmittedId`).
- A second delete request while one is pending replaces the staged book (`Dashboard.StageDelete`).
- Confirming with nothing staged throws inside the `try`. The result is the "Failed to delete book." toast and no
  call (`Dashboard.ConfirmDelete`).
- The page goes back to 1 only when the search text, genre or status actually changes. This follows from how the
  reset effect is keyed. Setting a filter to its current value changes nothing.
- After a successful write, a failed re-fetch replaces the success toast with the load-failure toast, because the
  last toast wins.
- A re-fetch never adjusts the page number. When the new list has fewer pages than the current page, the view is
  empty and the page buttons are hidden (`Dashboard.RefreshKeepsPage`).
- The form stays mounted while hidden and reloads its values only when the `book` it is given becomes a different
  object. Pressing "Add New Book" again after adding a book therefore shows the values last submitted
  (`Dashboard.AddKeepsFormValues`). Closing an edit and re-opening the same book shows the values typed before
  (`Dashboard.ReopenedEditKeepsTypedValues`).

## Model

| member | source | states |
|---|---|---|
| Text.Lower | src/App.js:471-472 | the lower-cased string has the same length, lower-cases each character in place and contains no ASCII capital |
| Text.LowerIdempotent | src/App.js:471-472 | lower-casing an already lower-cased string changes nothing |
| Text.Includes | src/App.js:471-472 | `includes` is true exactly when the needle occurs at some index of the haystack |
| Text.LongerNeedleExcluded | src/App.js:471-472 | a needle longer than the haystack is never found |
| Text.MatchYearPattern | src/App.js:337-342 | the year is accepted exactly when it is four ASCII digits with nothing before or after |
| Catalog.FormValues | src/App.js:214-235 | the values the reset effect loads: the defaults (status Available) for adding, exactly the edited book's fields for editing |
| Catalog.SubmittedId | src/App.js:238 | the id is the edited book's id when that id is non-empty, and the fresh id otherwise |
| Catalog.SubmittedBook | src/App.js:237-238 | the submitted record carries the form's fields unchanged, under the id chosen by SubmittedId |
| Catalog.EditUnchangedRoundTrip | src/App.js:223-238 | the values loaded from a book with a non-empty id, submitted untouched, give back the same book |
| View.MatchesSearchIff | src/App.js:470-472 | a book matches the search exactly when the lower-cased query occurs in the lower-cased title or author |
| View.GenreSelectionIff | src/App.js:473 | with only a genre chosen, a book is kept exactly when it is in the collection and the genre is empty or equal |
| View.StatusSelectionIff | src/App.js:474-475 | with only a status chosen, a book is kept exactly when it is in the collection and the status is empty or equal |
| View.FilterBooks | src/App.js:468-478 | every kept book matches the search, genre and status rules; a book is kept exactly when it is in the collection and matches; the result is no longer than the collection |
| View.FilterIsSubsequence | src/App.js:469-477 | the filtered list keeps the collection's order |
| View.FilterConcat | src/App.js:469-477 | filtering the concatenation of two lists is the concatenation of their filtered lists |
| View.FilterKeepsAllIff | src/App.js:469-477 | filtering changes nothing exactly when every book matches |
| View.FilterIdempotent | src/App.js:469-477 | filtering the filtered list again changes nothing |
| View.FilterAllEmpty | src/App.js:470-476 | with an empty search and no genre or status selected, the filtered list is the whole collection |
| View.TotalPages | src/App.js:480 | the page count is the ceiling of matches over 10, and it is 0 exactly when there are no matches |
| View.JsSlice | src/App.js:484 | `slice` never fails; with non-negative bounds it takes the clamped range, and a start past the end gives nothing |
| View.PageOf | src/App.js:481-485 | a page holds at most 10 books; page p at least 1 is filtered[(p-1)*10 .. min(p*10, n)]; it is empty beyond the last page and non-empty on every page up to the last |
| View.PagesUpToIsPrefix | src/App.js:481-485 | pages 1 to k laid end to end are the first min(10k, n) filtered books |
| View.PagesReassemble | src/App.js:480-485 | pages 1 to totalPages laid end to end give back the filtered list exactly |
| View.Derive | src/App.js:468-485 | the rendered page holds at most 10 books, all from the collection and all matching; total pages is 0 exactly when nothing matches; a page past the last is empty; an empty collection gives an empty view |
| Navigation.PrevPage | src/App.js:631 | Previous gives exactly max(1, p - 1): one page back, but not below 1 |
| Navigation.NextPage | src/App.js:641-642 | Next gives exactly min(totalPages, p + 1): one page forward, but not past the page count |
| Navigation.NavigationStaysInRange | src/App.js:631-642 | from a page between 1 and totalPages, both Previous and Next stay between 1 and totalPages |
| Navigation.NextTimesClamps | src/App.js:641-642 | k presses of Next give min(totalPages, p + k) |
| Navigation.PrevTimesClamps | src/App.js:631 | k presses of Previous give max(1, p - k) |
| Notifications.LastToastWins | src/App.js:154-156 | after any series of toasts the slot holds the last one, whatever it held before |
| Dashboard.InitialState | src/App.js:437-447 | the first render has no books, is loading, is on page 1, shows no toast, edits no book, holds the default form values and satisfies the invariant |
| Dashboard.FetchBooks | src/App.js:449-462 | one list call; success replaces the collection wholesale with the returned list; failure keeps it and shows one info toast; loading ends false either way; nothing else changes |
| Dashboard.SaveBook | src/App.js:491-517 | exactly one write, a PUT to the record's id when editing and a POST otherwise; success shows the success toast, then makes one list call and ends with loading false: a successful list becomes the collection, a failed one keeps it and adds the load-failure toast after the success toast; failure shows one info toast, makes no list call and changes nothing but the toast |
| Dashboard.OpenForm | src/App.js:223-235 | opening the form sets the edited book and shows the form; the values reload exactly when the edited book becomes a different object, and nothing else changes |
| Dashboard.SubmitForm | src/App.js:237-240 | values that fail validation cause nothing; valid ones close the form and make exactly one write: an update to the edited book's id, or to the fresh id when that id is empty, or a create with the fresh id; a successful write is followed by the success toast and one list call, whose result becomes the collection or, on failure, adds the load-failure toast; a failed write changes nothing but the toast and the form's visibility; only the collection, loading flag, toast and form visibility ever change |
| Dashboard.StageDelete | src/App.js:519-522 | asking to delete stages the book and opens the dialog, with no call and no toast |
| Dashboard.CancelDelete | src/App.js:541-544 | cancelling clears the staged book and closes the dialog, with no call and no toast |
| Dashboard.ConfirmDelete | src/App.js:524-539 | exactly one DELETE for the staged book's id; success shows an info toast, then re-fetches and ends with loading false: a successful list becomes the collection with that one toast, a failed one keeps the collection and adds the load-failure toast; failure shows one info toast and keeps the collection; with nothing staged, no call and the failure toast; the dialog closes and the target clears on every path; on failure or with nothing staged only the toast and the dialog change |
| Dashboard.SetSearchQuery | src/App.js:487-489 | a changed query sets the page to 1 whatever it was; an unchanged one changes nothing |
| Dashboard.SetGenre | src/App.js:487-489 | a changed genre selection sets the page to 1; an unchanged one changes nothing |
| Dashboard.SetStatus | src/App.js:487-489 | a changed status selection sets the page to 1; an unchanged one changes nothing |
| Dashboard.PressPrev | src/App.js:610-636 | Previous only lowers the page, never below 1, and moves back one page when the buttons are shown; it changes nothing while the buttons are hidden or on page 1, where it is disabled |
| Dashboard.PressNext | src/App.js:610-648 | Next only raises the page, never past the page count, and moves forward one page when the buttons are shown and the page is not the last; it changes nothing while the buttons are hidden or on the last page, where it is disabled |
| Dashboard.Apply | src/App.js:546-554 | add and edit open the form without a call; editing and submitting the form, and confirming or cancelling the dialog, do nothing while it is closed; closing only hides the form; the timer clears the toast |
| Dashboard.ApplyKeepsInvariant | src/App.js:436-554 | every event keeps the page at least 1 and keeps the dialog open exactly when a book is staged |
| Dashboard.RunKeepsInvariant | src/App.js:436-554 | every sequence of events from such a state keeps that invariant |
| Dashboard.ApplyBooksComeFromStore | src/App.js:449-544 | after any event the collection is unchanged or is exactly the list returned by a list call the event made |
| Dashboard.RunBooksComeFromStore | src/App.js:449-544 | after any sequence of events the collection is the initial one or the list returned to a list call that one of the events made |
| Dashboard.ApplyWritesFollowForm | src/App.js:237-240 | a create comes only from submitting the open form with valid values while no book is edited, and carries those values and the fresh id; an update only while a book is edited, to the id the record carries |
| Dashboard.RunWritesAreValid | src/App.js:237-240 | over any sequence of events every record sent by a create or update passes the form's validation |
| Dashboard.CallsOnlyFromIntents | src/App.js:491-544 | only loading, submitting the form and confirming a delete call the store, and a DELETE only goes to the staged book |
| Dashboard.DeleteThenCancel | src/App.js:519-544 | delete then cancel makes no call, shows no toast and leaves only the dialog state changed, back to idle |
| Dashboard.DeleteThenConfirm | src/App.js:519-539 | delete then confirm makes exactly one DELETE, for that book, and ends idle; success with a successful list makes that list the collection and shows one info toast; a failed DELETE keeps the collection and shows one info toast |
| Dashboard.AddThenSubmit | src/App.js:491-517 | adding a valid book makes one POST carrying the fresh id and then one list call, and shows the add-success toast first |
| Dashboard.EditThenSubmit | src/App.js:491-517 | editing and submitting makes one PUT to the edited book's id; a successful PUT is followed by one list call and shows the update-success toast first; a failed PUT keeps the collection, makes no list call and shows one info toast |
| Dashboard.EditNewObjectRoundTrip | src/App.js:223-238 | editing a book object the form was not showing loads its fields, and submitting straight away sends that book unchanged to its own id |
| Dashboard.UntouchedAddNotSubmitted | src/App.js:214-240 | submitting the add form before anything is typed fails validation: no call, no toast, and the form stays open |
| Dashboard.AddKeepsFormValues | src/App.js:223-235 | "Add New Book" while no book is edited leaves the form's values as they were |
| Dashboard.ReopenedEditKeepsTypedValues | src/App.js:223-235 | editing, typing, closing and editing the same book object again shows the typed values |
| Dashboard.InitialLoadFailure | src/App.js:446-466 | a failed first load leaves the collection empty, ends loading and shows the load-failure toast |
| Dashboard.RefreshKeepsPage | src/App.js:449-485 | a re-fetch keeps the page number, so a page past the new last page shows nothing and hides the page buttons |
| Scenarios.FifteenBooksTwoPages | src/App.js:468-485 | with no search or filter, 15 books give 2 pages: the first ten in store order, then the last five |
| Scenarios.SearchIgnoresCase | src/App.js:470-472 | over the two books Dune and Emma, the search "dune" keeps only Dune, and the result fits on one page |
| Scenarios.GenreFilterSelects | src/App.js:473 | a genre selection keeps only books of that genre |

## Left out

- Rendering: the JSX, the SVG icons and the toast colour classes are presentation.
- react-hook-form internals: `useForm`, `Controller` and `reset` are a foreign library. Only their effect is
  modelled: the required rules, the year pattern, and the values the form is reset to.
- `fetch`, HTTP, JSON and `console.error`: each call is a `Request` value whose outcome is a parameter. URLs,
  headers, bodies and checking the shape of the returned JSON are not modelled.
- `generateRandomId`: it uses `Math.random`. The fresh id is a parameter; whether it collides with a stored id is
  not modelled.
- Timing: the 3-second toast timer is the abstract `ToastTimerFired` event. The `setTimeout`/`clearTimeout` timing
  is not modelled.
- Async interleaving: every handler runs to completion before the next event. Its write and the following re-fetch
  happen in program order. The loading flag is not observable in the middle of a handler.
- The browser's handling of a `type='number'` input: the year is a string, checked against the pattern as given.
- Text.Lower: lower-cases ASCII letters only. JavaScript's `toLowerCase` also maps non-ASCII letters, so searches
  that differ only in non-ASCII case are not modelled.
- Dashboard.OpenForm: React compares the `book` prop by object identity. The model identifies an object by its fields
  and the successful fetch it came from, so two equal books from the same fetch count as one object.
- The fixed genre and status option lists: they only constrain the drop-downs, and the form only requires non-empty
  values, so they are not modelled.
- The form's field-by-field editing: `FormEdited` replaces all of the form's values at once.
- When events can happen: `Refresh`, `EditPressed` and `DeletePressed` may occur at any point of a run and for any
  book. The code fetches only on mount and after a successful write, and offers Edit and Delete only for the books on
  the current page, while not loading and with no dialog covering the page. The properties proved over runs hold for
  these wider event sequences too.

=== FILE: basics.dfy ===
/** Small shared vocabulary: an optional value and integer clamps. */
module Basics {

  /** A value that may be absent; JavaScript's `null` in the dashboard state. */
  datatype Option<+T> = None | Some(value: T)

  function Min(a: int, b: int): (m: int)
    ensures m <= a && m <= b
    ensures m == a || m == b
  {
    if a <= b then a else b
  }

  function Max(a: int, b: int): (m: int)
    ensures m >= a && m >= b
    ensures m == a || m == b
  {
    if a >= b then a else b
  }
}

=== FILE: catalog.dfy ===
/**
 * Book records, the values the book form holds, the form's validation
 * rules and the rule that gives a submitted book its identifier.
 */
module Catalog {
  import opened Basics
  import opened Text

  /** A book as the record store returns it; `id` is the only key. */
  datatype Book = Book(id: string, title: string, author: string, genre: string, year: string, status: string)

  /** The fields the book form edits: a book without its identifier. */
  datatype Draft = Draft(title: string, author: string, genre: string, year: string, status: string)

  /** The form's default values, which the reset effect also loads when no book is being edited. */
  const EmptyDraft: Draft := Draft("", "", "", "", "Available")

  function DraftOf(b: Book): Draft {
    Draft(b.title, b.author, b.genre, b.year, b.status)
  }

  /** The submitted record `{ ...data, id }`: the draft's fields with the given identifier. */
  function WithId(d: Draft, id: string): (b: Book)
    ensures DraftOf(b) == d
    ensures b.id == id
  {
    Book(id, d.title, d.author, d.genre, d.year, d.status)
  }

  /**
   * The values the form's reset effect loads when the edited book changes:
   * that book's fields, or the defaults when there is none. When the form
   * actually reloads is decided by the dashboard (`Dashboard.OpenForm`).
   */
  function FormValues(editing: Option<Book>): (d: Draft)
    ensures editing.None? ==> d == EmptyDraft
    ensures editing.Some? ==> WithId(d, editing.value.id) == editing.value
  {
    match editing
    case None => EmptyDraft
    case Some(b) => DraftOf(b)
  }

  /** react-hook-form's `required` rule on a text value: the empty string is missing. */
  predicate Required(v: string) {
    v != ""
  }

  /** The form's rules: every field required, and the year matching `^\d{4}$`. */
  predicate ValidDraft(d: Draft) {
    && Required(d.title)
    && Required(d.author)
    && Required(d.genre)
    && Required(d.year)
    && IsFourDigitYear(d.year)
    && Required(d.status)
  }

  /** The defaults of the add form are not submittable as they stand: title, author and genre are empty. */
  lemma EmptyDraftRejected()
    ensures !ValidDraft(EmptyDraft)
  {
  }

  /**
   * `book?.id || generateRandomId()`: the edited book keeps its identifier
   * unless that identifier is the empty string, which JavaScript treats as
   * false; otherwise the generator's fresh identifier is used.
   */
  function SubmittedId(editing: Option<Book>, freshId: string): (id: string)
    ensures id == freshId || (editing.Some? && id == editing.value.id)
    ensures editing.Some? && editing.value.id != "" ==> id == editing.value.id
    ensures id == freshId <== editing.None? || editing.value.id == ""
  {
    if editing.Some? && editing.value.id != "" then editing.value.id else freshId
  }

  /** The record the form submits for the given draft. */
  function SubmittedBook(d: Draft, editing: Option<Book>, freshId: string): (b: Book)
    ensures DraftOf(b) == d
    ensures b.id == SubmittedId(editing, freshId)
  {
    WithId(d, SubmittedId(editing, freshId))
  }

  /** Submitting the values the reset effect loaded for a book, untouched, yields that same book. */
  lemma EditUnchangedRoundTrip(b: Book, freshId: string)
    requires b.id != ""
    ensures SubmittedBook(FormValues(Some(b)), Some(b), freshId) == b
  {
  }
}

=== FILE: dashboard.dfy ===
/**
 * The `App` component's state and its event handlers: loading the
 * collection, the book form, the delete-confirmation dialog, the search
 * and filter controls, the page buttons and the toast timer.
 *
 * Every handler returns a `Step`: the state afterwards, the record-store
 * calls it made and the toasts it showed, each in the order they happened.
 * A call's outcome is a parameter of the handler that makes it.
 */
module Dashboard {
  import opened Basics
  import opened Catalog
  import opened View
  import opened Navigation
  import opened Sync
  import opened Notifications

  /**
   * The component's `useState` hooks, the toast slot of `useToast`, and the
   * values held by the book form, which stays mounted while hidden.
   *
   * React compares the edited book by object identity. Every successful
   * fetch creates new book objects, so an object is identified here by its
   * fields together with the version of the collection it was read from:
   * `booksVersion` counts successful fetches, and `currentBookVersion` is
   * the version the edited book was taken from.
   */
  datatype AppState = AppState(
    books: seq<Book>,
    isModalOpen: bool,
    isConfirmModalOpen: bool,
    currentBook: Option<Book>,
    bookToDelete: Option<Book>,
    searchQuery: string,
    selectedGenre: string,
    selectedStatus: string,
    currentPage: int,
    isLoading: bool,
    toast: Option<Toast>,
    form: Draft,
    booksVersion: nat,
    currentBookVersion: nat)

  /** The state on first render, before the initial fetch completes. */
  const Initial: AppState := AppState([], false, false, None, None, "", "", "", 1, true, None, EmptyDraft, 0, 0)

  /** One book object: its fields and the version of the collection it came from. */
  datatype BookObject = BookObject(book: Book, version: nat)

  /** The object the form's `book` prop refers to, or none for `null`. */
  function EditedObject(s: AppState): Option<BookObject> {
    match s.currentBook
    case None => None
    case Some(b) => Some(BookObject(b, s.currentBookVersion))
  }

  /** What one handler did: the state afterwards, the calls made and the toasts shown, in order. */
  datatype Step = Step(state: AppState, requests: seq<Request>, toasts: seq<Toast>)

  /** A handler that changes state without calling the store or showing a toast. */
  function Quiet(s: AppState): Step {
    Step(s, [], [])
  }

  /** `showToast(message, kind)` as a step of its own. */
  function Show(s: AppState, message: string, kind: ToastKind): Step {
    Step(s.(toast := ShowToast(s.toast, message, kind)), [], [Toast(message, kind)])
  }

  /** `first` followed by `second`, where `second` started from `first`'s state. */
  function Then(first: Step, second: Step): Step {
    Step(second.state, first.requests + second.requests, first.toasts + second.toasts)
  }

  /** The view the component renders from its state. */
  function ViewOf(s: AppState): ViewModel {
    Derive(s.books, s.searchQuery, s.selectedGenre, s.selectedStatus, s.currentPage)
  }

  /** The slot holds what the step's toasts left in it, starting from what it held before. */
  predicate ToastSlotFollows(before: Option<Toast>, st: Step) {
    st.state.toast == ShowAll(before, st.toasts)
  }

  /** The state on first render, and the base case of the invariant. */
  lemma InitialState()
    ensures Initial.books == [] && Initial.isLoading && Initial.currentPage == 1 && Initial.toast.None?
    ensures Initial.form == EmptyDraft && EditedObject(Initial).None?
    ensures Invariant(Initial)
  {
  }

  /**
   * `fetchBooks`: a successful list replaces the collection wholesale with
   * new objects; a failure keeps it and shows one info toast.
   */
  function FetchBooks(s: AppState, outcome: FetchOutcome): (st: Step)
    ensures st.requests == [List]
    ensures !st.state.isLoading
    ensures outcome.Fetched? ==>
      st.state.books == outcome.books && st.toasts == [] && st.state.booksVersion == s.booksVersion + 1
    ensures outcome.FetchFailed? ==>
      st.state.books == s.books && st.toasts == [Toast(LoadFailedMessage, Info)] && st.state.booksVersion == s.booksVersion
    ensures ToastSlotFollows(s.toast, st)
    ensures st.state.(books := s.books, isLoading := s.isLoading, toast := s.toast, booksVersion := s.booksVersion) == s
  {
    var loading := s.(isLoading := true);
    match outcome
    case Fetched(data) =>
      Step(loading.(books := data, booksVersion := s.booksVersion + 1, isLoading := false), [List], [])
    case FetchFailed =>
      var shown := Show(loading, LoadFailedMessage, Info);
      Step(shown.state.(isLoading := false), [List], shown.toasts)
  }

  /** The success message for a save: an update when a book is being edited, an add otherwise. */
  function SavedMessage(s: AppState): string {
    if s.currentBook.Some? then UpdatedMessage else AddedMessage
  }

  /**
   * `handleSaveBook(bookData)`: PUT to the record's own id when editing,
   * POST otherwise; on success a success toast and a re-fetch, on failure
   * one info toast and nothing else.
   */
  function SaveBook(s: AppState, bookData: Book, write: WriteOutcome, fetch: FetchOutcome): (st: Step)
    ensures |st.requests| >= 1 && WriteCount(st.requests) == 1
    ensures s.currentBook.Some? ==> st.requests[0] == Update(bookData.id, bookData)
    ensures s.currentBook.None? ==> st.requests[0] == Create(bookData)
    ensures write.WriteOk? ==>
      |st.requests| == 2 && st.requests[1] == List && |st.toasts| >= 1 && st.toasts[0] == Toast(SavedMessage(s), Success)
    ensures write.WriteOk? && fetch.Fetched? ==> st.state.books == fetch.books && st.toasts == [Toast(SavedMessage(s), Success)]
    ensures write.WriteOk? && fetch.FetchFailed? ==>
      st.state.books == s.books && st.toasts == [Toast(SavedMessage(s), Success), Toast(LoadFailedMessage, Info)]
    ensures write.WriteOk? ==> st.state.booksVersion == s.booksVersion + (if fetch.Fetched? then 1 else 0)
    ensures write.WriteOk? ==> !st.state.isLoading
    ensures write.WriteFailed? ==>
      |st.requests| == 1 && st.state.books == s.books && st.toasts == [Toast(SaveFailedMessage, Info)]
    ensures write.WriteFailed? ==> st.state.isLoading == s.isLoading && st.state.booksVersion == s.booksVersion
    ensures st.state.books == s.books || (write.WriteOk? && fetch.Fetched? && st.state.books == fetch.books)
    ensures ToastSlotFollows(s.toast, st)
    ensures st.state.(books := s.books, isLoading := s.isLoading, toast := s.toast, booksVersion := s.booksVersion) == s
  {
    var call := if s.currentBook.Some? then Update(bookData.id, bookData) else Create(bookData);
    match write
    case WriteOk =>
      var shown := Show(s, SavedMessage(s), Success);
      var refreshed := FetchBooks(shown.state, fetch);
      Then(Step(shown.state, [call], shown.toasts), refreshed)
    case WriteFailed =>
      var shown := Show(s, SaveFailedMessage, Info);
      Step(shown.state, [call], shown.toasts)
  }

  /**
   * Opening the form (`openAddModal` with `None`, `openEditModal` with a
   * book) and the form's reset effect: the form reloads its values exactly
   * when the `book` it is given is a different object from before.
   */
  function OpenForm(s: AppState, editing: Option<Book>): (t: AppState)
    ensures t.isModalOpen && t.currentBook == editing
    ensures EditedObject(t) != EditedObject(s) ==> t.form == FormValues(editing)
    ensures EditedObject(t) == EditedObject(s) ==> t.form == s.form
    ensures editing.Some? ==> EditedObject(t) == Some(BookObject(editing.value, s.booksVersion))
    ensures t.(isModalOpen := s.isModalOpen, currentBook := s.currentBook, form := s.form,
               currentBookVersion := s.currentBookVersion) == s
  {
    var version := if editing.Some? then s.booksVersion else s.currentBookVersion;
    var t := s.(currentBook := editing, currentBookVersion := version, isModalOpen := true);
    if EditedObject(t) != EditedObject(s) then t.(form := FormValues(editing)) else t
  }

  /**
   * The form's `onSubmit` behind react-hook-form's validation of the values
   * the form holds: invalid values are not submitted at all; valid ones are
   * saved with the edited book's id (or, when that is missing or empty, the
   * fresh one) and the form closes.
   */
  function SubmitForm(s: AppState, freshId: string, write: WriteOutcome, fetch: FetchOutcome): (st: Step)
    ensures !ValidDraft(s.form) ==> st == Quiet(s)
    ensures ValidDraft(s.form) ==> !st.state.isModalOpen && |st.requests| >= 1 && WriteCount(st.requests) == 1
    ensures ValidDraft(s.form) && s.currentBook.Some? && s.currentBook.value.id != "" ==>
      st.requests[0] == Update(s.currentBook.value.id, WithId(s.form, s.currentBook.value.id))
    ensures ValidDraft(s.form) && s.currentBook.Some? && s.currentBook.value.id == "" ==>
      st.requests[0] == Update(freshId, WithId(s.form, freshId))
    ensures ValidDraft(s.form) && s.currentBook.None? ==> st.requests[0] == Create(WithId(s.form, freshId))
    ensures ValidDraft(s.form) && write.WriteFailed? ==>
      |st.requests| == 1 && st.state.books == s.books && st.toasts == [Toast(SaveFailedMessage, Info)]
    ensures write.WriteFailed? ==> st.state.isLoading == s.isLoading && st.state.booksVersion == s.booksVersion
    ensures ValidDraft(s.form) && write.WriteOk? ==>
      |st.requests| == 2 && st.requests[1] == List && |st.toasts| >= 1 && st.toasts[0] == Toast(SavedMessage(s), Success)
      && !st.state.isLoading && st.state.booksVersion == s.booksVersion + (if fetch.Fetched? then 1 else 0)
    ensures ValidDraft(s.form) && write.WriteOk? && fetch.Fetched? ==>
      st.state.books == fetch.books && st.toasts == [Toast(SavedMessage(s), Success)]
    ensures ValidDraft(s.form) && write.WriteOk? && fetch.FetchFailed? ==>
      st.state.books == s.books && st.toasts == [Toast(SavedMessage(s), Success), Toast(LoadFailedMessage, Info)]
    ensures st.state.books == s.books || (write.WriteOk? && fetch.Fetched? && st.state.books == fetch.books)
    ensures ToastSlotFollows(s.toast, st)
    ensures st.state.(books := s.books, isLoading := s.isLoading, toast := s.toast, isModalOpen := s.isModalOpen,
                      booksVersion := s.booksVersion) == s
  {
    if !ValidDraft(s.form) then Quiet(s)
    else
      var saved := SaveBook(s, SubmittedBook(s.form, s.currentBook, freshId), write, fetch);
      Step(saved.state.(isModalOpen := false), saved.requests, saved.toasts)
  }

  /** `handleDeleteBook(book)`: stage the book and open the dialog; no call is made. */
  function StageDelete(s: AppState, b: Book): (st: Step)
    ensures st.requests == [] && st.toasts == []
    ensures st.state.bookToDelete == Some(b) && st.state.isConfirmModalOpen
    ensures st.state.(bookToDelete := s.bookToDelete, isConfirmModalOpen := s.isConfirmModalOpen) == s
  {
    Quiet(s.(bookToDelete := Some(b), isConfirmModalOpen := true))
  }

  /** `handleCancelDelete`: drop the staged book and close the dialog; no call is made. */
  function CancelDelete(s: AppState): (st: Step)
    ensures st.requests == [] && st.toasts == []
    ensures st.state.bookToDelete.None? && !st.state.isConfirmModalOpen
    ensures st.state.(bookToDelete := s.bookToDelete, isConfirmModalOpen := s.isConfirmModalOpen) == s
  {
    Quiet(s.(isConfirmModalOpen := false, bookToDelete := None))
  }

  /**
   * `handleConfirmDelete`: one DELETE for the staged book; on success an
   * info toast and a re-fetch, on failure one info toast. With nothing
   * staged, reading `bookToDelete.id` throws inside the `try`, which ends
   * as the failure toast without any call. The dialog closes and the target
   * is cleared in every case.
   */
  function ConfirmDelete(s: AppState, write: WriteOutcome, fetch: FetchOutcome): (st: Step)
    ensures !st.state.isConfirmModalOpen && st.state.bookToDelete.None?
    ensures s.bookToDelete.None? ==>
      st.requests == [] && st.state.books == s.books && st.toasts == [Toast(DeleteFailedMessage, Info)]
    ensures s.bookToDelete.Some? ==>
      |st.requests| >= 1 && WriteCount(st.requests) == 1 && st.requests[0] == Remove(s.bookToDelete.value.id)
    ensures s.bookToDelete.Some? && write.WriteOk? ==>
      st.requests == [Remove(s.bookToDelete.value.id), List] && |st.toasts| >= 1 && st.toasts[0] == Toast(DeletedMessage, Info)
      && !st.state.isLoading
    ensures s.bookToDelete.Some? && write.WriteOk? && fetch.Fetched? ==>
      st.state.books == fetch.books && st.toasts == [Toast(DeletedMessage, Info)]
    ensures s.bookToDelete.Some? && write.WriteOk? && fetch.FetchFailed? ==>
      st.state.books == s.books && st.toasts == [Toast(DeletedMessage, Info), Toast(LoadFailedMessage, Info)]
    ensures s.bookToDelete.Some? && write.WriteOk? ==>
      st.state.booksVersion == s.booksVersion + (if fetch.Fetched? then 1 else 0)
    ensures write.WriteFailed? ==>
      st.state.books == s.books && st.toasts == [Toast(DeleteFailedMessage, Info)] && |st.requests| <= 1
    ensures s.bookToDelete.None? || write.WriteFailed? ==>
      st.state.isLoading == s.isLoading && st.state.booksVersion == s.booksVersion
    ensures st.state.books == s.books
      || (s.bookToDelete.Some? && write.WriteOk? && fetch.Fetched? && st.state.books == fetch.books)
    ensures ToastSlotFollows(s.toast, st)
    ensures st.state.(books := s.books, isLoading := s.isLoading, toast := s.toast, isConfirmModalOpen := s.isConfirmModalOpen,
                      bookToDelete := s.bookToDelete, booksVersion := s.booksVersion) == s
  {
    var attempt :=
      match s.bookToDelete
      case None =>
        Show(s, DeleteFailedMessage, Info)
      case Some(b) =>
        match write
        case WriteOk =>
          var shown := Show(s, DeletedMessage, Info);
          Then(Step(shown.state, [Remove(b.id)], shown.toasts), FetchBooks(shown.state, fetch))
        case WriteFailed =>
          var shown := Show(s, DeleteFailedMessage, Info);
          Step(shown.state, [Remove(b.id)], shown.toasts);
    Step(attempt.state.(isConfirmModalOpen := false, bookToDelete := None), attempt.requests, attempt.toasts)
  }

  /** Typing in the search box; the page-reset effect fires only when the query actually changed. */
  function SetSearchQuery(s: AppState, query: string): (t: AppState)
    ensures t.searchQuery == query
    ensures query != s.searchQuery ==> t.currentPage == 1
    ensures query == s.searchQuery ==> t == s
    ensures t.(searchQuery := s.searchQuery, currentPage := s.currentPage) == s
  {
    if query == s.searchQuery then s else s.(searchQuery := query, currentPage := 1)
  }

  /** Choosing a genre; the page goes back to 1 when the selection changed. */
  function SetGenre(s: AppState, genre: string): (t: AppState)
    ensures t.selectedGenre == genre
    ensures genre != s.selectedGenre ==> t.currentPage == 1
    ensures genre == s.selectedGenre ==> t == s
    ensures t.(selectedGenre := s.selectedGenre, currentPage := s.currentPage) == s
  {
    if genre == s.selectedGenre then s else s.(selectedGenre := genre, currentPage := 1)
  }

  /** Choosing a status; the page goes back to 1 when the selection changed. */
  function SetStatus(s: AppState, status: string): (t: AppState)
    ensures t.selectedStatus == status
    ensures status != s.selectedStatus ==> t.currentPage == 1
    ensures status == s.selectedStatus ==> t == s
    ensures t.(selectedStatus := s.selectedStatus, currentPage := s.currentPage) == s
  {
    if status == s.selectedStatus then s else s.(selectedStatus := status, currentPage := 1)
  }

  /** The page buttons are rendered only when books are shown and there is more than one page. */
  predicate PagerShown(s: AppState) {
    var v := ViewOf(s);
    !s.isLoading && |v.page| > 0 && v.totalPages > 1
  }

  /** Pressing Previous: a no-op when the buttons are hidden or Previous is disabled on page 1. */
  function PressPrev(s: AppState): (t: AppState)
    ensures t.(currentPage := s.currentPage) == s
    ensures s.currentPage >= 1 ==> 1 <= t.currentPage <= s.currentPage
    ensures PagerShown(s) && s.currentPage > 1 ==> t.currentPage == s.currentPage - 1
    ensures !PagerShown(s) || s.currentPage == 1 ==> t == s
  {
    if PagerShown(s) && s.currentPage != 1 then s.(currentPage := PrevPage(s.currentPage)) else s
  }

  /** Pressing Next: a no-op when the buttons are hidden or Next is disabled on the last page. */
  function PressNext(s: AppState): (t: AppState)
    ensures t.(currentPage := s.currentPage) == s
    ensures s.currentPage >= 1 ==> t.currentPage >= s.currentPage
    ensures t.currentPage != s.currentPage ==> t.currentPage <= ViewOf(s).totalPages
    ensures PagerShown(s) && 1 <= s.currentPage < ViewOf(s).totalPages ==> t.currentPage == s.currentPage + 1
    ensures !PagerShown(s) || s.currentPage == ViewOf(s).totalPages ==> t == s
  {
    var total := ViewOf(s).totalPages;
    if PagerShown(s) && s.currentPage != total then s.(currentPage := NextPage(s.currentPage, total)) else s
  }

  /** The inputs the component reacts to; a call's outcome travels with the event that makes the call. */
  datatype Event =
    | Refresh(fetch: FetchOutcome)
    | SearchTyped(query: string)
    | GenreChosen(genre: string)
    | StatusChosen(status: string)
    | PrevPressed
    | NextPressed
    | AddPressed
    | EditPressed(book: Book)
    | FormEdited(values: Draft)
    | FormClosed
    | FormSubmitted(freshId: string, write: WriteOutcome, saveFetch: FetchOutcome)
    | DeletePressed(target: Book)
    | DeleteConfirmed(deleteWrite: WriteOutcome, deleteFetch: FetchOutcome)
    | DeleteCancelled
    | ToastTimerFired

  /**
   * One event's effect. The form and the dialog render nothing while
   * closed, so they take no input then; closing the form only hides it and
   * keeps its values.
   */
  function Apply(s: AppState, e: Event): (st: Step)
    ensures (e.FormEdited? || e.FormSubmitted?) && !s.isModalOpen ==> st == Quiet(s)
    ensures (e.DeleteConfirmed? || e.DeleteCancelled?) && !s.isConfirmModalOpen ==> st == Quiet(s)
    ensures e.AddPressed? ==> st.requests == [] && st.state.isModalOpen && st.state.currentBook.None?
    ensures e.EditPressed? ==> st.requests == [] && st.state.isModalOpen && st.state.currentBook == Some(e.book)
    ensures e.FormEdited? && s.isModalOpen ==> st == Quiet(s.(form := e.values))
    ensures e.FormClosed? ==> st == Quiet(s.(isModalOpen := false))
    ensures e.ToastTimerFired? ==> st == Quiet(s.(toast := None))
  {
    match e
    case Refresh(fetch) => FetchBooks(s, fetch)
    case SearchTyped(q) => Quiet(SetSearchQuery(s, q))
    case GenreChosen(g) => Quiet(SetGenre(s, g))
    case StatusChosen(st) => Quiet(SetStatus(s, st))
    case PrevPressed => Quiet(PressPrev(s))
    case NextPressed => Quiet(PressNext(s))
    case AddPressed => Quiet(OpenForm(s, None))
    case EditPressed(b) => Quiet(OpenForm(s, Some(b)))
    case FormEdited(d) => if s.isModalOpen then Quiet(s.(form := d)) else Quiet(s)
    case FormClosed => Quiet(s.(isModalOpen := false))
    case FormSubmitted(freshId, write, fetch) =>
      if s.isModalOpen then SubmitForm(s, freshId, write, fetch) else Quiet(s)
    case DeletePressed(b) => StageDelete(s, b)
    case DeleteConfirmed(write, fetch) =>
      if s.isConfirmModalOpen then ConfirmDelete(s, write, fetch) else Quiet(s)
    case DeleteCancelled =>
      if s.isConfirmModalOpen then CancelDelete(s) else Quiet(s)
    case ToastTimerFired => Quiet(s.(toast := ExpireToast(s.toast)))
  }

  /** A sequence of events, one after the other. */
  function Run(s: AppState, events: seq<Event>): Step
    decreases |events|
  {
    if |events| == 0 then Quiet(s)
    else
      var first := Apply(s, events[0]);
      Then(first, Run(first.state, events[1..]))
  }

  /** Running a non-empty prefix is running its first event and then the rest of the prefix. */
  lemma RunPrefixStep(s: AppState, events: seq<Event>, i: nat)
    requires i < |events|
    ensures Run(s, events[..i + 1]).state == Run(Apply(s, events[0]).state, events[1..][..i]).state
  {
    var prefix := events[..i + 1];
    assert prefix[0] == events[0];
    assert prefix[1..] == events[1..][..i];
  }

  /**
   * What holds in every reachable state: the page number is at least 1,
   * and the dialog is open exactly when a book is staged for deletion.
   */
  predicate Invariant(s: AppState) {
    s.currentPage >= 1 && (s.isConfirmModalOpen <==> s.bookToDelete.Some?)
  }

  /** Every event keeps the invariant. */
  lemma ApplyKeepsInvariant(s: AppState, e: Event)
    requires Invariant(s)
    ensures Invariant(Apply(s, e).state)
  {
  }

  /** Every sequence of events keeps the invariant. */
  lemma {:induction false} RunKeepsInvariant(s: AppState, events: seq<Event>)
    requires Invariant(s)
    ensures Invariant(Run(s, events).state)
    decreases |events|
  {
    if |events| > 0 {
      ApplyKeepsInvariant(s, events[0]);
      RunKeepsInvariant(Apply(s, events[0]).state, events[1..]);
    }
  }

  /** The list outcome an event carries, if it carries one. */
  function FetchOf(e: Event): Option<FetchOutcome> {
    match e
    case Refresh(fetch) => Some(fetch)
    case FormSubmitted(_, _, fetch) => Some(fetch)
    case DeleteConfirmed(_, fetch) => Some(fetch)
    case _ => None
  }

  /**
   * The collection is never patched locally: after any event it is either
   * what it was, or exactly the list the store returned to a call the
   * event made.
   */
  lemma ApplyBooksComeFromStore(s: AppState, e: Event)
    ensures var st := Apply(s, e);
      st.state.books == s.books
      || (FetchOf(e) == Some(Fetched(st.state.books)) && List in st.requests)
  {
  }

  /**
   * Over any sequence of events, the collection is the initial one, or the
   * list returned to a list call that one of the events actually made.
   */
  lemma {:induction false} RunBooksComeFromStore(s: AppState, events: seq<Event>)
    ensures var books := Run(s, events).state.books;
      books == s.books
      || exists i :: 0 <= i < |events| && FetchOf(events[i]) == Some(Fetched(books))
           && List in Apply(Run(s, events[..i]).state, events[i]).requests
    decreases |events|
  {
    if |events| > 0 {
      var first := Apply(s, events[0]);
      ApplyBooksComeFromStore(s, events[0]);
      RunBooksComeFromStore(first.state, events[1..]);
      var books := Run(s, events).state.books;
      assert books == Run(first.state, events[1..]).state.books;
      if books != first.state.books {
        var i :| 0 <= i < |events[1..]| && FetchOf(events[1..][i]) == Some(Fetched(books))
          && List in Apply(Run(first.state, events[1..][..i]).state, events[1..][i]).requests;
        RunPrefixStep(s, events, i);
        assert events[1..][i] == events[i + 1];
        assert List in Apply(Run(s, events[..i + 1]).state, events[i + 1]).requests;
      } else if books != s.books {
        assert events[..0] == [];
        assert Run(s, events[..0]).state == s;
        assert FetchOf(events[0]) == Some(Fetched(books)) && List in Apply(Run(s, events[..0]).state, events[0]).requests;
      }
    }
  }

  /** Only loading, submitting the form and confirming a delete call the store; a DELETE only ever goes to the staged book. */
  lemma CallsOnlyFromIntents(s: AppState, e: Event)
    ensures var st := Apply(s, e);
      (st.requests != [] ==> e.Refresh? || e.FormSubmitted? || e.DeleteConfirmed?)
      && (forall r :: r in st.requests && r.Remove? ==>
            e.DeleteConfirmed? && s.bookToDelete.Some? && r.id == s.bookToDelete.value.id)
  {
  }

  /**
   * Every create or update comes from submitting the open form with values
   * that pass validation: a create only when no book is being edited, with
   * the fresh id; an update only when one is, to the submitted record's id.
   */
  lemma ApplyWritesFollowForm(s: AppState, e: Event)
    ensures forall r :: r in Apply(s, e).requests && r.Create? ==>
      e.FormSubmitted? && s.isModalOpen && s.currentBook.None? && ValidDraft(s.form)
      && r.book == WithId(s.form, e.freshId)
    ensures forall r :: r in Apply(s, e).requests && r.Update? ==>
      e.FormSubmitted? && s.isModalOpen && s.currentBook.Some? && ValidDraft(s.form)
      && r.book == WithId(s.form, SubmittedId(s.currentBook, e.freshId)) && r.id == r.book.id
  {
    if e.FormSubmitted? && s.isModalOpen && ValidDraft(s.form) {
      var saved := SaveBook(s, SubmittedBook(s.form, s.currentBook, e.freshId), e.write, e.saveFetch);
      assert forall r :: r in saved.requests ==> r == saved.requests[0] || r == List;
    }
  }

  /** Over any sequence of events, every record sent to the store by a create or update passes the form's validation. */
  lemma {:induction false} RunWritesAreValid(s: AppState, events: seq<Event>)
    ensures forall r :: r in Run(s, events).requests && (r.Create? || r.Update?) ==> ValidDraft(DraftOf(r.book))
    decreases |events|
  {
    if |events| > 0 {
      var first := Apply(s, events[0]);
      ApplyWritesFollowForm(s, events[0]);
      RunWritesAreValid(first.state, events[1..]);
      assert Run(s, events).requests == first.requests + Run(first.state, events[1..]).requests;
    }
  }

  /** Asking to delete and then cancelling makes no call and returns the dialog to idle, leaving all else as it was. */
  lemma DeleteThenCancel(s: AppState, b: Book)
    ensures Run(s, [DeletePressed(b), DeleteCancelled])
         == Step(s.(isConfirmModalOpen := false, bookToDelete := None), [], [])
  {
    var staged := Apply(s, DeletePressed(b));
    assert [DeletePressed(b), DeleteCancelled][1..] == [DeleteCancelled];
    assert Run(staged.state, [DeleteCancelled]) == Then(Apply(staged.state, DeleteCancelled), Quiet(Apply(staged.state, DeleteCancelled).state));
  }

  /**
   * Asking to delete and then confirming makes exactly one DELETE, for the
   * staged book, and ends idle on both paths; a successful DELETE followed
   * by a successful list makes that list the collection; a failed DELETE
   * leaves the collection as it was and shows one info toast.
   */
  lemma DeleteThenConfirm(s: AppState, b: Book, write: WriteOutcome, fetch: FetchOutcome)
    ensures var st := Run(s, [DeletePressed(b), DeleteConfirmed(write, fetch)]);
      && |st.requests| >= 1 && st.requests[0] == Remove(b.id) && WriteCount(st.requests) == 1
      && !st.state.isConfirmModalOpen && st.state.bookToDelete.None?
      && (write.WriteOk? ==> st.requests == [Remove(b.id), List] && |st.toasts| >= 1 && st.toasts[0] == Toast(DeletedMessage, Info))
      && (write.WriteOk? && fetch.Fetched? ==> st.state.books == fetch.books && st.toasts == [Toast(DeletedMessage, Info)])
      && (write.WriteFailed? ==> st.state.books == s.books && st.toasts == [Toast(DeleteFailedMessage, Info)])
  {
    var staged := Apply(s, DeletePressed(b));
    var confirmed := Apply(staged.state, DeleteConfirmed(write, fetch));
    assert [DeletePressed(b), DeleteConfirmed(write, fetch)][1..] == [DeleteConfirmed(write, fetch)];
    assert Run(staged.state, [DeleteConfirmed(write, fetch)]) == Then(confirmed, Quiet(confirmed.state));
  }

  /** The events of opening the form, filling it in and submitting it. */
  function FillAndSubmit(open: Event, d: Draft, freshId: string, write: WriteOutcome, fetch: FetchOutcome): seq<Event> {
    [open, FormEdited(d), FormSubmitted(freshId, write, fetch)]
  }

  /** Running the three events of `FillAndSubmit` is submitting `d` from the opened form. */
  lemma FillAndSubmitSteps(s: AppState, open: Event, d: Draft, freshId: string, write: WriteOutcome, fetch: FetchOutcome)
    requires open.AddPressed? || open.EditPressed?
    ensures var ready := Apply(s, open).state;
      Run(s, FillAndSubmit(open, d, freshId, write, fetch)) == SubmitForm(ready.(form := d), freshId, write, fetch)
  {
    var es := FillAndSubmit(open, d, freshId, write, fetch);
    var s1 := Apply(s, open).state;
    var s2 := s1.(form := d);
    var last := SubmitForm(s2, freshId, write, fetch);
    assert es[1..] == [FormEdited(d), FormSubmitted(freshId, write, fetch)];
    assert es[1..][1..] == [FormSubmitted(freshId, write, fetch)];
    assert Run(s2, es[1..][1..]) == Then(last, Quiet(last.state));
    assert Run(s1, es[1..]) == Then(Quiet(s2), Run(s2, es[1..][1..]));
  }

  /**
   * Adding a valid book with a successful write makes exactly one create
   * carrying the fresh id, then one list call, and shows the success toast
   * first; a successful list becomes the collection.
   */
  lemma AddThenSubmit(s: AppState, d: Draft, freshId: string, fetch: FetchOutcome)
    requires ValidDraft(d)
    ensures var st := Run(s, FillAndSubmit(AddPressed, d, freshId, WriteOk, fetch));
      && st.requests == [Create(WithId(d, freshId)), List]
      && |st.toasts| >= 1 && st.toasts[0] == Toast(AddedMessage, Success)
      && (fetch.Fetched? ==> st.state.books == fetch.books && st.toasts == [Toast(AddedMessage, Success)])
      && !st.state.isModalOpen
  {
    FillAndSubmitSteps(s, AddPressed, d, freshId, WriteOk, fetch);
  }

  /**
   * Editing a book and submitting valid values makes exactly one update to
   * that book's id, carrying that id; a failed update leaves the collection
   * as it was, makes no list call and shows one info toast.
   */
  lemma EditThenSubmit(s: AppState, b: Book, d: Draft, freshId: string, write: WriteOutcome, fetch: FetchOutcome)
    requires ValidDraft(d) && b.id != ""
    ensures var st := Run(s, FillAndSubmit(EditPressed(b), d, freshId, write, fetch));
      && |st.requests| >= 1 && st.requests[0] == Update(b.id, WithId(d, b.id)) && WriteCount(st.requests) == 1
      && (write.WriteOk? ==>
            st.requests == [Update(b.id, WithId(d, b.id)), List] && |st.toasts| >= 1 && st.toasts[0] == Toast(UpdatedMessage, Success))
      && (write.WriteFailed? ==>
            st.requests == [Update(b.id, WithId(d, b.id))] && st.state.books == s.books && st.toasts == [Toast(SaveFailedMessage, Info)])
  {
    FillAndSubmitSteps(s, EditPressed(b), d, freshId, write, fetch);
  }

  /**
   * Editing a book object the form was not already showing loads that
   * book's fields, so submitting straight away sends the book back
   * unchanged to its own id.
   */
  lemma EditNewObjectRoundTrip(s: AppState, b: Book, freshId: string, write: WriteOutcome, fetch: FetchOutcome)
    requires EditedObject(s) != Some(BookObject(b, s.booksVersion))
    requires b.id != "" && ValidDraft(DraftOf(b))
    ensures Apply(s, EditPressed(b)).state.form == DraftOf(b)
    ensures var st := Run(s, [EditPressed(b), FormSubmitted(freshId, write, fetch)]);
      |st.requests| >= 1 && st.requests[0] == Update(b.id, b)
  {
    var editing := Apply(s, EditPressed(b));
    var submitted := Apply(editing.state, FormSubmitted(freshId, write, fetch));
    assert [EditPressed(b), FormSubmitted(freshId, write, fetch)][1..] == [FormSubmitted(freshId, write, fetch)];
    assert Run(editing.state, [FormSubmitted(freshId, write, fetch)]) == Then(submitted, Quiet(submitted.state));
    EditUnchangedRoundTrip(b, freshId);
  }

  /**
   * Submitting the add form on first use, before anything is typed, is
   * stopped by validation: no call is made and the form stays open.
   */
  lemma UntouchedAddNotSubmitted(freshId: string, write: WriteOutcome, fetch: FetchOutcome)
    ensures var st := Run(Initial, [AddPressed, FormSubmitted(freshId, write, fetch)]);
      st.requests == [] && st.toasts == [] && st.state.isModalOpen && st.state.books == Initial.books
  {
    var es := [AddPressed, FormSubmitted(freshId, write, fetch)];
    var adding := Apply(Initial, AddPressed);
    assert adding.state.form == EmptyDraft;
    EmptyDraftRejected();
    var submitted := Apply(adding.state, es[1]);
    assert submitted == Quiet(adding.state);
    assert es[1..] == [es[1]];
    assert Run(adding.state, es[1..]) == Then(submitted, Quiet(submitted.state));
  }

  /**
   * Pressing "Add New Book" while no book is being edited does not reload
   * the form: it still holds whatever it held, such as the values of the
   * book added last.
   */
  lemma AddKeepsFormValues(s: AppState)
    requires s.currentBook.None?
    ensures Apply(s, AddPressed).state.form == s.form
  {
  }

  /**
   * Editing a book, typing, closing the form and editing the same book
   * object again shows the typed values, not the stored book.
   */
  lemma ReopenedEditKeepsTypedValues(s: AppState, b: Book, d: Draft)
    ensures Run(s, [EditPressed(b), FormEdited(d), FormClosed, EditPressed(b)]).state.form == d
  {
    var es := [EditPressed(b), FormEdited(d), FormClosed, EditPressed(b)];
    var s1 := Apply(s, es[0]).state;
    var s2 := Apply(s1, es[1]).state;
    var s3 := Apply(s2, es[2]).state;
    var s4 := Apply(s3, es[3]).state;
    assert s4.form == d;
    assert es[1..][1..][1..][1..] == [];
    assert Run(s, es).state == Run(s1, es[1..]).state == Run(s2, es[1..][1..]).state
        == Run(s3, es[1..][1..][1..]).state == Run(s4, es[1..][1..][1..][1..]).state;
  }

  /** A failed first load leaves the collection empty, ends loading and shows the load-failure toast. */
  lemma InitialLoadFailure()
    ensures var st := Apply(Initial, Refresh(FetchFailed));
      st.state.books == [] && !st.state.isLoading && st.state.toast == Some(Toast(LoadFailedMessage, Info))
  {
  }

  /**
   * A re-fetch never moves the page: if the fresh list has fewer pages than
   * the current page number, nothing is shown and the page buttons are
   * hidden, although books may match.
   */
  lemma RefreshKeepsPage(s: AppState, data: seq<Book>)
    requires TotalPages(|FilterBooks(data, s.searchQuery, s.selectedGenre, s.selectedStatus)|) < s.currentPage
    ensures var t := Apply(s, Refresh(Fetched(data))).state;
      t.currentPage == s.currentPage && ViewOf(t).page == [] && !PagerShown(t)
  {
  }
}

=== FILE: navigation.dfy ===
/** The Previous and Next page buttons. */
module Navigation {
  import opened Basics

  /** Previous: `Math.max(1, prev - 1)`. */
  function PrevPage(p: int): (r: int)
    ensures r >= 1
    ensures r == p - 1 || r == 1
    ensures r >= p - 1
    ensures p >= 1 ==> r <= p
  {
    Max(1, p - 1)
  }

  /** Next: `Math.min(totalPages, prev + 1)`. */
  function NextPage(p: int, totalPages: int): (r: int)
    ensures r <= totalPages
    ensures r == p + 1 || r == totalPages
    ensures r <= p + 1
    ensures p <= totalPages ==> r >= p
  {
    Min(totalPages, p + 1)
  }

  /** From any page in range, both buttons keep the page in range. */
  lemma NavigationStaysInRange(p: int, totalPages: int)
    requires 1 <= p <= totalPages
    ensures 1 <= PrevPage(p) <= totalPages
    ensures 1 <= NextPage(p, totalPages) <= totalPages
  {
  }

  /** `k` presses of Next. */
  function NextTimes(p: int, totalPages: int, k: nat): int
    decreases k
  {
    if k == 0 then p else NextTimes(NextPage(p, totalPages), totalPages, k - 1)
  }

  /** `k` presses of Previous. */
  function PrevTimes(p: int, k: nat): int
    decreases k
  {
    if k == 0 then p else PrevTimes(PrevPage(p), k - 1)
  }

  /** Pressing Next `k` times moves `k` pages forward, stopping at the last page. */
  lemma {:induction false} NextTimesClamps(p: int, totalPages: int, k: nat)
    requires p <= totalPages
    ensures NextTimes(p, totalPages, k) == Min(totalPages, p + k)
    decreases k
  {
    if k > 0 {
      NextTimesClamps(NextPage(p, totalPages), totalPages, k - 1);
    }
  }

  /** Pressing Previous `k` times moves `k` pages back, stopping at page 1. */
  lemma {:induction false} PrevTimesClamps(p: int, k: nat)
    requires p >= 1
    ensures PrevTimes(p, k) == Max(1, p - k)
    decreases k
  {
    if k > 0 {
      PrevTimesClamps(PrevPage(p), k - 1);
    }
  }
}

=== FILE: notifications.dfy ===
/** The single toast slot of `useToast` and the messages the dashboard shows in it. */
module Notifications {
  import opened Basics

  datatype ToastKind = Success | Info

  datatype Toast = Toast(message: string, kind: ToastKind)

  const LoadFailedMessage: string := "Failed to load books. Please start the JSON server."
  const UpdatedMessage: string := "Book updated successfully!"
  const AddedMessage: string := "New book added successfully!"
  const SaveFailedMessage: string := "Failed to save book."
  const DeletedMessage: string := "Book deleted successfully!"
  const DeleteFailedMessage: string := "Failed to delete book."

  /** `showToast(message, type)`: the new toast takes the slot whatever it held. */
  function ShowToast(slot: Option<Toast>, message: string, kind: ToastKind): (r: Option<Toast>)
    ensures r.Some? && r.value.message == message && r.value.kind == kind
  {
    Some(Toast(message, kind))
  }

  /** The slot after a series of `showToast` calls: the last one wins, and no call leaves the slot as it was. */
  function ShowAll(slot: Option<Toast>, shown: seq<Toast>): Option<Toast>
    decreases |shown|
  {
    if |shown| == 0 then slot else ShowAll(ShowToast(slot, shown[0].message, shown[0].kind), shown[1..])
  }

  /** After any non-empty series of toasts the slot holds exactly the last one, and nothing of what it held before. */
  lemma {:induction false} LastToastWins(slot: Option<Toast>, shown: seq<Toast>)
    requires |shown| > 0
    ensures ShowAll(slot, shown) == Some(shown[|shown| - 1])
    decreases |shown|
  {
    if |shown| > 1 {
      LastToastWins(ShowToast(slot, shown[0].message, shown[0].kind), shown[1..]);
    }
  }

  /** The 3-second timer firing: `setToast(null)`. */
  function ExpireToast(slot: Option<Toast>): (r: Option<Toast>)
    ensures r.None?
  {
    None
  }
}

=== FILE: scenarios.dfy ===
/** Worked examples of the derived view. */
module Scenarios {
  import opened Text
  import opened Catalog
  import opened View

  const Dune: Book := Book("1", "Dune", "Herbert", "Science Fiction", "1965", "Available")
  const Emma: Book := Book("2", "Emma", "Austen", "Fiction", "1815", "Issued")

  /** With no search and no filters, fifteen books give two pages, the first holding the first ten in store order. */
  lemma FifteenBooksTwoPages(books: seq<Book>)
    requires |books| == 15
    ensures var v := Derive(books, "", "", "", 1);
      v.page == books[..10] && v.totalPages == 2
    ensures Derive(books, "", "", "", 2).page == books[10..]
  {
    FilterAllEmpty(books);
  }

  lemma DuneMatchesDune()
    ensures MatchesSearch(Dune, "dune")
  {
    assert Lower("Dune") == "dune";
    assert Lower("dune") == "dune";
  }

  /** A haystack whose first character differs from the needle's is searched from its second character on. */
  lemma SkipMismatch(hay: string, needle: string)
    requires |hay| > 0 && |needle| > 0 && hay[0] != needle[0]
    ensures Includes(hay, needle) == Includes(hay[1..], needle)
  {
    assert !(needle <= hay);
  }

  lemma EmmaTitleLacksDune()
    ensures !Includes("emma", "dune")
  {
    SkipMismatch("emma", "dune");
    assert "emma"[1..] == "mma";
    LongerNeedleExcluded("mma", "dune");
  }

  lemma AustenLacksDune()
    ensures !Includes("austen", "dune")
  {
    SkipMismatch("austen", "dune");
    SkipMismatch("usten", "dune");
    SkipMismatch("sten", "dune");
    assert "austen"[1..] == "usten" && "usten"[1..] == "sten" && "sten"[1..] == "ten";
    LongerNeedleExcluded("ten", "dune");
  }

  lemma EmmaDoesNotMatchDune()
    ensures !MatchesSearch(Emma, "dune")
  {
    assert Lower("dune") == "dune";
    assert Lower("Emma") == "emma";
    assert Lower("Austen") == "austen";
    EmmaTitleLacksDune();
    AustenLacksDune();
  }

  /** Searching "dune" ignores case: it finds the book titled "Dune" and only that one. */
  lemma SearchIgnoresCase()
    ensures FilterBooks([Dune, Emma], "dune", "", "") == [Dune]
    ensures Derive([Dune, Emma], "dune", "", "", 1).totalPages == 1
  {
    DuneMatchesDune();
    EmmaDoesNotMatchDune();
    assert [Dune, Emma][1..] == [Emma];
    assert [Emma][1..] == [];
  }

  /** A genre filter keeps only the books of that genre. */
  lemma GenreFilterSelects()
    ensures FilterBooks([Dune, Emma], "", "Fiction", "") == [Emma]
  {
    IncludesEmpty(Lower(Emma.title));
    assert Lower("") == "";
    assert [Dune, Emma][1..] == [Emma];
  }
}

=== FILE: sync.dfy ===
/**
 * The calls the dashboard makes to the record store, and the outcomes it
 * can observe. The network itself is not modelled: every call's outcome is
 * given to the handler that makes it.
 */
module Sync {
  import opened Catalog

  /** One call to the record store: `GET /books`, `POST /books`, `PUT /books/{id}`, `DELETE /books/{id}`. */
  datatype Request =
    | List
    | Create(book: Book)
    | Update(id: string, book: Book)
    | Remove(id: string)

  /** A list call either yields the store's books or fails (non-ok status, transport or parse error). */
  datatype FetchOutcome = Fetched(books: seq<Book>) | FetchFailed

  /** A create, update or remove call either succeeds or fails. */
  datatype WriteOutcome = WriteOk | WriteFailed

  predicate IsWrite(r: Request) {
    !r.List?
  }

  /** The number of writes in a sequence of calls. */
  function WriteCount(rs: seq<Request>): (n: nat)
    ensures n <= |rs|
    ensures n == 0 <==> forall i :: 0 <= i < |rs| ==> !IsWrite(rs[i])
  {
    if |rs| == 0 then 0 else (if IsWrite(rs[0]) then 1 else 0) + WriteCount(rs[1..])
  }
}

=== FILE: text.dfy ===
/**
 * The string operations the dashboard relies on: lower-casing for the
 * case-insensitive search, substring search (`includes`) and the
 * four-digit year pattern of the book form.
 */
module Text {

  /** The 26 ASCII capital letters. */
  predicate IsUpper(c: char) {
    'A' <= c <= 'Z'
  }

  /** The ten ASCII digits, which is what `\d` means in a regular expression without the `u` flag. */
  predicate IsDigit(c: char) {
    '0' <= c <= '9'
  }

  /** Lower-cases one ASCII capital letter and leaves every other character alone. */
  function LowerChar(c: char): (r: char)
    ensures !IsUpper(r)
    ensures !IsUpper(c) ==> r == c
    ensures IsUpper(c) ==> 'a' <= r <= 'z' && r as int - 'a' as int == c as int - 'A' as int
  {
    if IsUpper(c) then (c as int - 'A' as int + 'a' as int) as char else c
  }

  /** The ASCII part of `String.prototype.toLowerCase`. */
  function Lower(s: string): (r: string)
    ensures |r| == |s|
    ensures forall i :: 0 <= i < |s| ==> r[i] == LowerChar(s[i])
    ensures forall i :: 0 <= i < |r| ==> !IsUpper(r[i])
  {
    if |s| == 0 then [] else [LowerChar(s[0])] + Lower(s[1..])
  }

  /** Lower-casing twice is lower-casing once. */
  lemma LowerIdempotent(s: string)
    ensures Lower(Lower(s)) == Lower(s)
  {
    var once := Lower(s);
    assert forall i :: 0 <= i < |once| ==> Lower(once)[i] == once[i];
  }

  /** `needle` occurs in `hay` starting at index `i`. */
  predicate OccursAt(hay: string, needle: string, i: nat) {
    i + |needle| <= |hay| && hay[i..i + |needle|] == needle
  }

  /**
   * `String.prototype.includes`: tries every start position from the front,
   * and answers true exactly when the needle occurs somewhere in the haystack.
   */
  function Includes(hay: string, needle: string): (r: bool)
    ensures r <==> exists i: nat :: OccursAt(hay, needle, i)
    decreases |hay|
  {
    PrefixIsOccurrenceAtZero(hay, needle);
    if needle <= hay then true
    else if |hay| == 0 then
      assert forall i: nat :: OccursAt(hay, needle, i) ==> i == 0;
      false
    else
      OccurrenceShift(hay, needle);
      Includes(hay[1..], needle)
  }

  /** Occurrences in the tail are the occurrences in the whole, shifted by one. */
  lemma OccurrenceShift(hay: string, needle: string)
    requires |hay| > 0
    ensures forall i: nat :: OccursAt(hay[1..], needle, i) <==> OccursAt(hay, needle, i + 1)
    ensures forall i: nat :: i > 0 ==> (OccursAt(hay, needle, i) <==> OccursAt(hay[1..], needle, i - 1))
  {
    forall i: nat
      ensures OccursAt(hay[1..], needle, i) <==> OccursAt(hay, needle, i + 1)
    {
      if i + |needle| <= |hay[1..]| {
        assert hay[1..][i..i + |needle|] == hay[i + 1..i + 1 + |needle|];
      }
    }
  }

  /** A needle is a prefix exactly when it occurs at index zero. */
  lemma PrefixIsOccurrenceAtZero(hay: string, needle: string)
    ensures needle <= hay <==> OccursAt(hay, needle, 0)
  {
    if OccursAt(hay, needle, 0) {
      assert hay[..|needle|] == needle;
    }
  }

  /** A needle longer than the haystack is never included. */
  lemma {:induction false} LongerNeedleExcluded(hay: string, needle: string)
    requires |hay| < |needle|
    ensures !Includes(hay, needle)
    decreases |hay|
  {
    if |hay| > 0 {
      LongerNeedleExcluded(hay[1..], needle);
    }
  }

  /** Every string includes the empty string. */
  lemma IncludesEmpty(hay: string)
    ensures Includes(hay, "")
  {
  }

  /** The form's year rule `^\d{4}$`: exactly four ASCII digits, nothing before or after. */
  predicate IsFourDigitYear(y: string) {
    |y| == 4 && forall i :: 0 <= i < |y| ==> IsDigit(y[i])
  }

  /**
   * The anchored pattern `^\d{4}$` matched left to right, the way a
   * regular-expression engine consumes its input.
   */
  method MatchYearPattern(y: string) returns (ok: bool)
    ensures ok <==> IsFourDigitYear(y)
  {
    if |y| != 4 {
      return false;
    }
    var i := 0;
    while i < 4
      invariant 0 <= i <= 4
      invariant forall j :: 0 <= j < i ==> IsDigit(y[j])
    {
      if !IsDigit(y[i]) {
        return false;
      }
      i := i + 1;
    }
    return true;
  }
}

=== FILE: view.dfy ===
/**
 * The derived view: the books that pass the search and the two filters,
 * the number of pages, and the slice shown on the current page.
 */
module View {
  import opened Basics
  import opened Text
  import opened Catalog

  /** Books shown per page. */
  const BooksPerPage: nat := 10

  /** Title or author contains the query, both lower-cased. */
  predicate MatchesSearch(b: Book, query: string) {
    Includes(Lower(b.title), Lower(query)) || Includes(Lower(b.author), Lower(query))
  }

  /** The empty selection means "all genres". */
  predicate MatchesGenre(b: Book, genre: string) {
    genre == "" || b.genre == genre
  }

  /** The empty selection means "all statuses". */
  predicate MatchesStatus(b: Book, status: string) {
    status == "" || b.status == status
  }

  predicate Matches(b: Book, query: string, genre: string, status: string) {
    MatchesSearch(b, query) && MatchesGenre(b, genre) && MatchesStatus(b, status)
  }

  /** The search matches exactly when the lower-cased query occurs in the lower-cased title or author. */
  lemma MatchesSearchIff(b: Book, query: string)
    ensures MatchesSearch(b, query) <==>
      (exists i: nat :: OccursAt(Lower(b.title), Lower(query), i))
      || (exists i: nat :: OccursAt(Lower(b.author), Lower(query), i))
  {
    var t, a, q := Lower(b.title), Lower(b.author), Lower(query);
    if Includes(t, q) {
      var i: nat :| OccursAt(t, q, i);
      assert MatchesSearch(b, query);
      assert exists j: nat :: OccursAt(Lower(b.title), Lower(query), j);
    } else if Includes(a, q) {
      var i: nat :| OccursAt(a, q, i);
      assert MatchesSearch(b, query);
      assert exists j: nat :: OccursAt(a, q, j);
      assert exists j: nat :: OccursAt(Lower(b.author), Lower(query), j);
    } else {
      assert forall i: nat :: !OccursAt(t, q, i) && !OccursAt(a, q, i);
    }
  }

  /** The empty search matches every book. */
  lemma EmptySearchMatchesAll(b: Book)
    ensures MatchesSearch(b, "")
  {
    assert Lower("") == "";
    assert OccursAt(Lower(b.title), "", 0);
  }

  /** `books.filter(...)`: the matching books, in collection order. */
  function FilterBooks(books: seq<Book>, query: string, genre: string, status: string): (r: seq<Book>)
    ensures |r| <= |books|
    ensures forall i :: 0 <= i < |r| ==> Matches(r[i], query, genre, status)
    ensures forall b :: b in r <==> b in books && Matches(b, query, genre, status)
  {
    if |books| == 0 then []
    else (if Matches(books[0], query, genre, status) then [books[0]] else []) + FilterBooks(books[1..], query, genre, status)
  }

  /** `a` is obtained from `b` by deleting elements, keeping the order of the rest. */
  predicate IsSubsequence<T(==)>(a: seq<T>, b: seq<T>)
    decreases |b|
  {
    |a| == 0 || (|b| > 0 && ((a[0] == b[0] && IsSubsequence(a[1..], b[1..])) || IsSubsequence(a, b[1..])))
  }

  /** The filtered list keeps the collection's order. */
  lemma {:induction false} FilterIsSubsequence(books: seq<Book>, query: string, genre: string, status: string)
    ensures IsSubsequence(FilterBooks(books, query, genre, status), books)
    decreases |books|
  {
    if |books| > 0 {
      FilterIsSubsequence(books[1..], query, genre, status);
      var rest := FilterBooks(books[1..], query, genre, status);
      if Matches(books[0], query, genre, status) {
        assert FilterBooks(books, query, genre, status) == [books[0]] + rest;
        assert ([books[0]] + rest)[1..] == rest;
      } else {
        assert FilterBooks(books, query, genre, status) == rest;
      }
    }
  }

  /** Filtering distributes over concatenation; with the one-book case this determines the filter completely. */
  lemma {:induction false} FilterConcat(a: seq<Book>, b: seq<Book>, query: string, genre: string, status: string)
    ensures FilterBooks(a + b, query, genre, status) == FilterBooks(a, query, genre, status) + FilterBooks(b, query, genre, status)
    decreases |a|
  {
    if |a| == 0 {
      assert a + b == b;
    } else {
      assert (a + b)[0] == a[0];
      assert (a + b)[1..] == a[1..] + b;
      FilterConcat(a[1..], b, query, genre, status);
    }
  }

  /** Filtering changes nothing exactly when every book matches. */
  lemma {:induction false} FilterKeepsAllIff(books: seq<Book>, query: string, genre: string, status: string)
    ensures FilterBooks(books, query, genre, status) == books <==> forall i :: 0 <= i < |books| ==> Matches(books[i], query, genre, status)
    decreases |books|
  {
    if |books| > 0 {
      FilterKeepsAllIff(books[1..], query, genre, status);
      var r := FilterBooks(books, query, genre, status);
      if !Matches(books[0], query, genre, status) {
        assert |r| < |books|;
      } else {
        assert forall i :: 1 <= i < |books| ==> books[i] == books[1..][i - 1];
      }
    }
  }

  /** Filtering twice is filtering once. */
  lemma FilterIdempotent(books: seq<Book>, query: string, genre: string, status: string)
    ensures var once := FilterBooks(books, query, genre, status);
      FilterBooks(once, query, genre, status) == once
  {
    FilterKeepsAllIff(FilterBooks(books, query, genre, status), query, genre, status);
  }

  /** With an empty search and no genre or status selected, every book is shown. */
  lemma FilterAllEmpty(books: seq<Book>)
    ensures FilterBooks(books, "", "", "") == books
  {
    forall i | 0 <= i < |books|
      ensures Matches(books[i], "", "", "")
    {
      EmptySearchMatchesAll(books[i]);
    }
    FilterKeepsAllIff(books, "", "", "");
  }

  /** With only a genre selected, the view keeps exactly the books of that genre; the empty selection keeps all. */
  lemma GenreSelectionIff(books: seq<Book>, genre: string)
    ensures forall b :: b in FilterBooks(books, "", genre, "") <==> b in books && (genre == "" || b.genre == genre)
  {
    forall b | b in books {
      EmptySearchMatchesAll(b);
    }
  }

  /** With only a status selected, the view keeps exactly the books with that status; the empty selection keeps all. */
  lemma StatusSelectionIff(books: seq<Book>, status: string)
    ensures forall b :: b in FilterBooks(books, "", "", status) <==> b in books && (status == "" || b.status == status)
  {
    forall b | b in books {
      EmptySearchMatchesAll(b);
    }
  }

  /** `Math.ceil(matchCount / BOOKS_PER_PAGE)`. */
  function TotalPages(matchCount: nat): (t: nat)
    ensures t * BooksPerPage >= matchCount
    ensures t == 0 || (t - 1) * BooksPerPage < matchCount
    ensures t == 0 <==> matchCount == 0
  {
    (matchCount + BooksPerPage - 1) / BooksPerPage
  }

  /** How `Array.prototype.slice` turns an index argument into a position: negative counts from the end, then clamp to the length. */
  function SliceIndex(i: int, len: nat): (k: nat)
    ensures k <= len
    ensures 0 <= i ==> k == Min(i, len)
    ensures i < 0 ==> k == Max(len + i, 0)
  {
    if i < 0 then (if len + i < 0 then 0 else len + i) else if i > len then len else i
  }

  /** `Array.prototype.slice(start, end)`; never fails, whatever the indices. */
  function JsSlice<T>(s: seq<T>, start: int, end: int): (r: seq<T>)
    ensures |r| <= |s|
    ensures 0 <= start <= end ==> r == s[Min(start, |s|)..Min(end, |s|)]
    ensures 0 <= start && |s| <= start ==> r == []
    ensures start <= end ==> |r| <= end - start
  {
    var from := SliceIndex(start, |s|);
    var to := SliceIndex(end, |s|);
    if from <= to then s[from..to] else []
  }

  /** The books shown on page `page` (1-based) of the filtered list. */
  function PageOf(filtered: seq<Book>, page: int): (r: seq<Book>)
    ensures |r| <= BooksPerPage
    ensures page >= 1 ==> r == filtered[Min((page - 1) * BooksPerPage, |filtered|)..Min(page * BooksPerPage, |filtered|)]
    ensures page > TotalPages(|filtered|) ==> r == []
    ensures 1 <= page <= TotalPages(|filtered|) ==> |r| > 0
    ensures forall i :: 0 <= i < |r| ==> r[i] in filtered
  {
    var startIndex := (page - 1) * BooksPerPage;
    var endIndex := startIndex + BooksPerPage;
    JsSlice(filtered, startIndex, endIndex)
  }

  /** Pages 1 to `k` laid end to end. */
  function PagesUpTo(filtered: seq<Book>, k: nat): seq<Book> {
    if k == 0 then [] else PagesUpTo(filtered, k - 1) + PageOf(filtered, k)
  }

  /** The first `k` pages are the first `k * BooksPerPage` books (or all of them). */
  lemma {:induction false} PagesUpToIsPrefix(filtered: seq<Book>, k: nat)
    ensures PagesUpTo(filtered, k) == filtered[..Min(k * BooksPerPage, |filtered|)]
  {
    if k > 0 {
      PagesUpToIsPrefix(filtered, k - 1);
      var a := Min((k - 1) * BooksPerPage, |filtered|);
      var b := Min(k * BooksPerPage, |filtered|);
      assert filtered[..a] + filtered[a..b] == filtered[..b];
    }
  }

  /** Pages 1 to `TotalPages` together give back the whole filtered list, each book once and in order. */
  lemma PagesReassemble(filtered: seq<Book>)
    ensures PagesUpTo(filtered, TotalPages(|filtered|)) == filtered
  {
    PagesUpToIsPrefix(filtered, TotalPages(|filtered|));
  }

  /** What the dashboard renders from its state. */
  datatype ViewModel = ViewModel(filtered: seq<Book>, totalPages: nat, page: seq<Book>)

  /** `filteredBooks`, `totalPages` and `paginatedBooks` for the given inputs. */
  function Derive(books: seq<Book>, query: string, genre: string, status: string, currentPage: int): (v: ViewModel)
    ensures IsSubsequence(v.filtered, books)
    ensures forall b :: b in v.filtered <==> b in books && Matches(b, query, genre, status)
    ensures |v.page| <= BooksPerPage
    ensures forall i :: 0 <= i < |v.page| ==> v.page[i] in books && Matches(v.page[i], query, genre, status)
    ensures v.totalPages == 0 <==> forall b :: b in books ==> !Matches(b, query, genre, status)
    ensures currentPage > v.totalPages ==> v.page == []
    ensures 1 <= currentPage <= v.totalPages ==> v.page != []
    ensures |books| == 0 ==> v == ViewModel([], 0, [])
  {
    var filtered := FilterBooks(books, query, genre, status);
    FilterIsSubsequence(books, query, genre, status);
    assert |filtered| == 0 <==> forall b :: b in books ==> !Matches(b, query, genre, status) by {
      if |filtered| > 0 {
        assert filtered[0] in filtered;
      }
    }
    ViewModel(filtered, TotalPages(|filtered|), PageOf(filtered, currentPage))
  }
}
